=== FILE: README.md ===
# The StreetFoo client's view-model and sync logic, modelled in Dafny

StreetFoo is a tutorial Windows Store client built around MVVM. It has three pieces of logic that run apart from the UI. This project models those pieces and proves their properties:

- **The view-model base class** (`ViewModelBase.dfy`). It holds a string-keyed property bag in which a missing key reads as null. Each write raises exactly one `PropertyChanged` notification, delivered through the host only when something is subscribed. It also keeps a busy counter that flips the bindable `IsBusy` flag only at the 0/1 boundary.
- **The registration page view-model** (`RegisterPage.dfy`). `Validate` turns the four form fields into an ordered list of error messages. `DoRegistration` then either enters the busy state and calls the register service, or shows the errors in one alert. The module also covers the service's success and failure callbacks and the completion handler.
- **The background sync task** (`BackgroundSync.dfy`). A run takes a lock and asks a gate (`CanRunAsync`) whether to go on. The gate checks connectivity and a five-minute expiration stamp, then restores the logon. If the gate opens, the run pushes local changes. If connectivity still holds, it fetches the user's reports and spools them to a file. The lock is released on every way out.

Every operation is a pure function over immutable records:

- `ViewModel` is the dictionary, the counter, the subscription and the effects delivered so far.
- `Store` is the lock, the stored expiration and the spool file.
- `World` holds everything a sync run asks the outside world: connectivity at each of its two checks, the debugger, two clock readings, the logon result, the fetch reply, and at most one call that throws.

Host effects are entries in an ordered trace (`Host.Effect`). These are alerts, navigation, `PropertyChanged` deliveries and the register request. A sync run reports the calls that completed (`BackgroundSync.Action`) and how it ended.

Time is an integer count of seconds, and the window is `5 * 60`. The stored expiration is `Option<int>`, with `None` for the empty setting. A property slot holds `Value = Null | Flag(bool) | Text(string)`.

`ExitBusy` has no guard, so `BusyCount` can go below zero, and the model keeps the negative count. It proves that `IsBusy == (BusyCount > 0)` still holds after *every* sequence of calls, not only non-negative ones. The visible defect is different: an `EnterBusy` that brings the count back to 0 after an unmatched exit leaves `IsBusy` false while an operation runs (`UnmatchedExitHidesNextOperation`).

## Model

| member | source | states |
|---|---|---|
| `ViewModelBase.New` | Chapter04/StreetFoo.Client/StreetFoo.Client/Model/Base/ViewModel.cs:26-30 | a new view-model holds no values (every key reads null), its count is zero, nothing is subscribed and nothing has been delivered |
| `ViewModelBase.GetValue` | Chapter04/StreetFoo.Client/StreetFoo.Client/Model/Base/ViewModel.cs:60-67 | the untyped read returns the stored object for a key that is present and null for one that is not |
| `ViewModelBase.IsBusy` | Chapter04/StreetFoo.Client/StreetFoo.Client/Model/Base/ViewModel.cs:33-39 | the `IsBusy` getter is false until the flag is first written and afterwards reads the stored bool |
| `ViewModelBase.SameValuesReadAlike` | Chapter04/StreetFoo.Client/StreetFoo.Client/Model/Base/ViewModel.cs:60-77 | reads depend on the dictionary alone: two models with the same values agree on every key and on `IsBusy` |
| `ViewModelBase.SetValue` | Chapter04/StreetFoo.Client/StreetFoo.Client/Model/Base/ViewModel.cs:80-87 | after the write the key reads back the value and every other key reads as before; the key set grows by exactly that key; exactly one notification naming the key is appended when subscribed and none otherwise, even when the value is unchanged |
| `ViewModelBase.OnPropertyChanged` | Chapter04/StreetFoo.Client/StreetFoo.Client/Model/Base/ViewModel.cs:89-93 | the notification reaches the host only when a handler is subscribed; the earlier effects are kept as a prefix and nothing else changes |
| `ViewModelBase.ReadFlag` | Chapter04/StreetFoo.Client/StreetFoo.Client/Model/Base/ViewModel.cs:69-77 | the typed bool read of a null or missing slot is `default(bool)`, i.e. false; a stored bool reads as itself; a stored string is parsed as a bool, and the read fails exactly when the text is neither "True" nor "False" |
| `ViewModelBase.ReadText` | Chapter04/StreetFoo.Client/StreetFoo.Client/Model/Base/ViewModel.cs:69-77 | the typed string read of a null or missing slot is `default(string)`, i.e. null; a stored string reads as itself; a stored bool reads as its text |
| `ViewModelBase.FlagText` | Chapter04/StreetFoo.Client/StreetFoo.Client/Model/Base/ViewModel.cs:74 | converting a bool to a string gives "True" or "False", never empty |
| `ViewModelBase.ParseFlag` | Chapter04/StreetFoo.Client/StreetFoo.Client/Model/Base/ViewModel.cs:74 | converting a string to a bool succeeds exactly on the two texts `FlagText` produces, inverting it, and fails otherwise |
| `ViewModelBase.EnterBusy` | Chapter04/StreetFoo.Client/StreetFoo.Client/Model/Base/ViewModel.cs:41-48 | the count goes up by one; only when the new count is exactly 1 is the slot written with `true`, with its notification; otherwise only the counter changes; no other property and not the subscription moves; coherence of flag and count is preserved |
| `ViewModelBase.ExitBusy` | Chapter04/StreetFoo.Client/StreetFoo.Client/Model/Base/ViewModel.cs:50-57 | the count goes down by one with no lower bound; only when the new count is exactly 0 is the slot written with `false`, with its notification; otherwise only the counter changes; no other property and not the subscription moves; coherence is preserved |
| `ViewModelBase.Complete` | Chapter04/StreetFoo.Client/StreetFoo.Client/Model/Base/ViewModel.cs:102-105 | the completion handler is exactly one `ExitBusy`: it lowers the count by one, writes the flag false only at zero, leaves every other property alone and keeps the flag coherent |
| `ViewModelBase.Fail` | Chapter04/StreetFoo.Client/StreetFoo.Client/Model/Base/ViewModel.cs:96-99 | the failure handler shows exactly one error alert carrying the errors and changes no property or counter |
| `ViewModelBase.Subscribe` | Chapter04/StreetFoo.Client/StreetFoo.Client/Model/Base/ViewModel.cs:24 | attaching a handler to the event changes nothing but the subscription |
| `ViewModelBase.RunBusy` | Chapter04/StreetFoo.Client/StreetFoo.Client/Model/Base/ViewModel.cs:41-57 | any sequence of enters and exits leaves the count at its start plus enters minus exits, keeps the flag coherent and moves no other property |
| `ViewModelBase.FreshReadsDefaults` | Chapter04/StreetFoo.Client/StreetFoo.Client/Model/Base/ViewModel.cs:60-77 | a freshly constructed view-model, bound or not, reads null for every key, false and null through the typed reads, and `IsBusy` is false in agreement with its zero count |
| `ViewModelBase.SetThenRead` | Chapter04/StreetFoo.Client/StreetFoo.Client/Model/Base/ViewModel.cs:69-83 | typed reads return what a write stored, including a bool written and read back as text and a bool's text read back as a bool |
| `ViewModelBase.RewriteStillNotifies` | Chapter04/StreetFoo.Client/StreetFoo.Client/Model/Base/ViewModel.cs:80-93 | writing the value a key already holds leaves it unchanged and still notifies once |
| `ViewModelBase.AlwaysCoherent` | Chapter04/StreetFoo.Client/StreetFoo.Client/Model/Base/ViewModel.cs:41-57 | from a fresh model every interleaving of enters and exits, even one that goes negative, keeps `IsBusy == (BusyCount > 0)` with the count equal to enters minus exits |
| `ViewModelBase.BalancedEndsIdle` | Chapter04/StreetFoo.Client/StreetFoo.Client/Model/Base/ViewModel.cs:41-57 | equally many enters and exits in any order end at count 0 with `IsBusy` false |
| `ViewModelBase.UnmatchedExitHidesNextOperation` | Chapter04/StreetFoo.Client/StreetFoo.Client/Model/Base/ViewModel.cs:41-57 | an unmatched exit takes the count to -1 with no flag write or notification, and the next enter returns to 0 still showing idle |
| `ViewModelBase.EnterThenCompleteRestores` | Chapter04/StreetFoo.Client/StreetFoo.Client/Model/Base/ViewModel.cs:102-105 | entering the busy state and running the completion handler restores the count and the visible flag |
| `RegisterPage.NullOrEmpty` | Chapter03/StreetFoo.Client/StreetFoo.Client/Model/Instances/RegisterPageViewModel.cs:98 | `string.IsNullOrEmpty` holds exactly for a null string and a string of length zero |
| `RegisterPage.ReadForm` | Chapter03/StreetFoo.Client/StreetFoo.Client/Model/Instances/RegisterPageViewModel.cs:24-55 | each of the four getters reads null for a field never set or set to null, and the stored string for a field set to one |
| `RegisterPage.FilledFormReadsBack` | Chapter03/StreetFoo.Client/StreetFoo.Client/Model/Instances/RegisterPageViewModel.cs:24-55 | setting the four fields and reading them back gives exactly the strings set, with one notification per setter in order |
| `RegisterPage.FormIgnoresBusyFlag` | Chapter03/StreetFoo.Client/StreetFoo.Client/Model/Instances/RegisterPageViewModel.cs:24-55 | the form reads only its four keys, so a change confined to the busy flag leaves what it reads unchanged |
| `RegisterPage.Validate` | Chapter03/StreetFoo.Client/StreetFoo.Client/Model/Instances/RegisterPageViewModel.cs:95-110 | each "... is required." message appears iff its field is null or empty; the mismatch message appears iff the password is non-empty and differs from the confirmation; messages come in rule order without repeats; at most four; none iff all four fields are non-empty and the passwords agree |
| `RegisterPage.RulesReport` | Chapter03/StreetFoo.Client/StreetFoo.Client/Model/Instances/RegisterPageViewModel.cs:98-109 | each of the five rules adds its message exactly when it fires |
| `RegisterPage.RulesInOrder` | Chapter03/StreetFoo.Client/StreetFoo.Client/Model/Instances/RegisterPageViewModel.cs:98-109 | the rules' messages come out in the order the rules run, at most four of them, since an empty password and a mismatch never fire together |
| `RegisterPage.MessagesDistinct` | Chapter03/StreetFoo.Client/StreetFoo.Client/Model/Instances/RegisterPageViewModel.cs:98-109 | the five messages are pairwise different, so each one identifies its rule |
| `RegisterPage.DoRegistration` | Chapter03/StreetFoo.Client/StreetFoo.Client/Model/Instances/RegisterPageViewModel.cs:57-93 | with no errors the busy state is entered (and nothing else in the dictionary or the subscription changes) and then the register request with the four fields is the next effect; with errors exactly one alert listing them is shown and nothing else changes; the form fields are never altered and flag coherence is kept |
| `RegisterPage.CreatedMessage` | Chapter03/StreetFoo.Client/StreetFoo.Client/Model/Instances/RegisterPageViewModel.cs:79 | the success message is the fixed creation text followed by the new user's id |
| `RegisterPage.OnRegistered` | Chapter03/StreetFoo.Client/StreetFoo.Client/Model/Instances/RegisterPageViewModel.cs:75-83 | the success callback shows the creation message and then navigates to the logon view, touching no property, the counter or the subscription |
| `RegisterPage.Register` | Chapter03/StreetFoo.Client/StreetFoo.Client/Model/Instances/RegisterPageViewModel.cs:68-92 | a whole registration (command, then success or failure callback, then completion) ends with the busy count it started with and, from a coherent model (every state reachable from `New`, by `AlwaysCoherent`), the visible flag it started with; an invalid form goes no further than the alert |
| `RegisterPage.SingleMissingField` | Chapter03/StreetFoo.Client/StreetFoo.Client/Model/Instances/RegisterPageViewModel.cs:98-109 | each required-field rule fires on its own; a null confirmation also yields the mismatch |
| `RegisterPage.EverythingMissing` | Chapter03/StreetFoo.Client/StreetFoo.Client/Model/Instances/RegisterPageViewModel.cs:98-109 | four empty fields give the four required messages in order and no mismatch |
| `RegisterPage.EmptyPasswordNeverMismatches` | Chapter03/StreetFoo.Client/StreetFoo.Client/Model/Instances/RegisterPageViewModel.cs:102-109 | an empty password yields "Password is required." and never the mismatch message |
| `BackgroundSync.CanRun` | ChapterA2/StreetFoo.Client/StreetFoo.Client/Tasks/BackgroundSyncTask.cs:65-110 | each call the gate reaches that throws ends it with `Failure` of that call, having done only what came before (a throwing connectivity read: nothing; a throwing logon restore: the stamp); offline: expiration cleared, answer false; no debugger and expiration strictly later than now: answer false, expiration kept; past the checks: expiration set to stamp time plus five minutes, then the answer and the logged result are what the logon restore answers; true iff checks passed, nothing threw and the logon was restored |
| `BackgroundSync.Work` | ChapterA2/StreetFoo.Client/StreetFoo.Client/Tasks/BackgroundSyncTask.cs:34-56 | a throwing push ends the work with nothing done; otherwise the push is followed by exactly what `Fetch` does; fetch iff push done and the second connectivity read neither throws nor finds the connection gone; spool replaced by the reports iff the fetch had no errors and writing did not throw, otherwise kept |
| `BackgroundSync.Fetch` | ChapterA2/StreetFoo.Client/StreetFoo.Client/Tasks/BackgroundSyncTask.cs:37-56 | after the push, case by case: a throwing connectivity read, fetch or spool write ends the block with `Threw` of that call and what completed before it; no connection ends it with nothing done; a reply with errors ends it after the fetch; otherwise the spool is replaced by the reports |
| `BackgroundSync.GateThrowsWhenReached` | ChapterA2/StreetFoo.Client/StreetFoo.Client/Tasks/BackgroundSyncTask.cs:65-110 | the gate fails exactly when the one throwing call is a gate call that the answers before it let the gate reach |
| `BackgroundSync.WorkThrowsWhenReached` | ChapterA2/StreetFoo.Client/StreetFoo.Client/Tasks/BackgroundSyncTask.cs:34-56 | after an open gate, the work throws exactly when it reaches the throwing call |
| `BackgroundSync.Attempt` | ChapterA2/StreetFoo.Client/StreetFoo.Client/Tasks/BackgroundSyncTask.cs:28-57 | the try body's trace is the gate's actions, followed by the work's actions when the gate opens; it pushes iff the gate opens, fetches and spools only after that; it ends with `Threw` exactly when the one failing call is reached, with the gate's failure or the work's ending passed on unchanged, and a closed gate ends it as `GateClosed`; the stored expiration is exactly the one the gate leaves, and it is empty whenever the gate cleared it |
| `BackgroundSync.Locked` | ChapterA2/StreetFoo.Client/StreetFoo.Client/Tasks/BackgroundSyncTask.cs:28-62 | once the lock is taken, the trace is taking it, then exactly the try body's actions, then releasing it, and the lock is free afterwards, on the early return, normal completion and every exception; the exception still propagates: the run ends as the body did, with `Threw` exactly when the failing call is reached; the stored expiration is exactly the one the gate leaves |
| `BackgroundSync.DoRun` | ChapterA2/StreetFoo.Client/StreetFoo.Client/Tasks/BackgroundSyncTask.cs:19-63 | a held lock makes the run a no-op; otherwise the trace is taking the lock, the try body's actions (the gate's clear, stamp and logon check, then the work), and releasing it, and the run throws exactly when the failing call is reached; actions come in run order; push iff the gate opens; fetch iff pushed and still connected; spool replaced iff a clean fetch, else untouched; a free-lock run leaves exactly the expiration the gate leaves, empty when it was cleared |
| `BackgroundSync.OfflineClearsExpiration` | ChapterA2/StreetFoo.Client/StreetFoo.Client/Tasks/BackgroundSyncTask.cs:67-77 | with no connectivity at the gate the expiration becomes empty, the gate closes and nothing is pushed or fetched |
| `BackgroundSync.UnexpiredSkips` | ChapterA2/StreetFoo.Client/StreetFoo.Client/Tasks/BackgroundSyncTask.cs:81-97 | with no debugger, an expiration later than now closes the gate and the store comes back unchanged |
| `BackgroundSync.ExpirationAtNowIsExpired` | ChapterA2/StreetFoo.Client/StreetFoo.Client/Tasks/BackgroundSyncTask.cs:93-105 | an expiration equal to now counts as expired and a new one is stamped |
| `BackgroundSync.DebuggerIgnoresExpiration` | ChapterA2/StreetFoo.Client/StreetFoo.Client/Tasks/BackgroundSyncTask.cs:81 | with a debugger attached the stored expiration does not affect the actions, the ending, the spool or the lock |
| `BackgroundSync.DebuggerGateIgnoresExpiration` | ChapterA2/StreetFoo.Client/StreetFoo.Client/Tasks/BackgroundSyncTask.cs:79-101 | with a debugger attached the gate's verdict and actions are the same whatever expiration is stored |
| `BackgroundSync.GateAnswersLogon` | ChapterA2/StreetFoo.Client/StreetFoo.Client/Tasks/BackgroundSyncTask.cs:103-109 | past the checks the expiration is stamped, and the run pushes exactly when the logon restore answers true |
| `BackgroundSync.RetriggerWithinWindowSkips` | ChapterA2/StreetFoo.Client/StreetFoo.Client/Tasks/BackgroundSyncTask.cs:81-105 | a second trigger inside the five-minute window of a stamping run, with no debugger, finds the gate closed and changes nothing |
| `BackgroundSync.OfflineRunRetriesImmediately` | ChapterA2/StreetFoo.Client/StreetFoo.Client/Tasks/BackgroundSyncTask.cs:67-105 | after an offline run cleared the expiration, the next connected run passes the expiration check at once and pushes |
| `BackgroundSync.ConnectivityFaultReleasesLock` | ChapterA2/StreetFoo.Client/StreetFoo.Client/Objects/StreetFooRuntime.cs:91-98 | reading connectivity can throw (the profile may be null); at the gate the run then ends having done nothing but take and release the lock, after the push it ends having pushed, and either way the lock is free and the spool untouched |
| `BackgroundSync.RunsChain` | ChapterA2/StreetFoo.Client/StreetFoo.Client/Tasks/BackgroundSyncTask.cs:19-63 | in a series of runs each run starts from the store the one before it left |
| `BackgroundSync.SequentialRunsNeverBlock` | ChapterA2/StreetFoo.Client/StreetFoo.Client/Tasks/BackgroundSyncTask.cs:19-63 | runs fired one after another from a free lock each take and release it, none finds it held, and it is free at the end |
| `BackgroundSync.OverlappingTriggerIsNoOp` | ChapterA2/StreetFoo.Client/StreetFoo.Client/Tasks/BackgroundSyncTask.cs:22-26 | a run fired while another holds the lock changes nothing, completes no call and does not release the lock |

## Left out

- Platform and UI code is not part of this model: the XAML binding engine, the dependency-property control in `MyGridView.cs`, the `MessageDialog` and `DataContext` wiring in `PageExtender.cs`, and the IoC and SQLite set-up in `StreetFooRuntime.cs`. `HasConnectivity` is an input boolean that may differ between its two reads; the null connection profile it can dereference is modelled as a throw at either read.
- UI-thread dispatch is modelled as an ordered effect trace. When the handler actually runs on the UI thread is not modelled.
- `ViewModelBase.ParseFlag` accepts exactly "True" and "False". .NET's `Boolean.Parse` also ignores case and surrounding white space.
- `ViewModelBase.ReadFlag` and `ViewModelBase.ReadText` cover only null, bool and string slots. Other runtime types and `Convert.ChangeType` in general are not modelled.
- `BusyCount` is an unbounded integer. The 32-bit overflow after 2^31 nested `EnterBusy` calls is not modelled.
- The command execution context (`CommandExecutionContext`, `AddTask`) and `ServiceProxyFactory` lookup carry no logic of their own and are not modelled. The register service is an input `Reply`. The order in which the proxy invokes its callbacks is in proxy code that is not part of this model. `RegisterPage.Register` assumes success or failure first, then completion.
- `RegisterPageViewModel.cs` calls `GetCompleteHandler(true)`, an overload of a Chapter 3 base class that is not part of this model. The completion handler follows the Chapter 4 base class, where it is one `ExitBusy`.
- How `ErrorBucket` formats its errors into alert text is not part of this model. An alert carries the ordered list of messages.
- Dates are integers:
  - The ISO 8601 `"o"` formatting and `DateTime.ParseExact`/UTC conversion are left out.
  - A malformed stored expiration is covered only as a throw at `ReadingExpiration`.
- JSON serialisation, the file system and the service proxies (`PushServerUpdatesAsync`, `GetReportsByUserAsync`, `RestorePersistentLogonAsync`) are inputs, and their failures are `World.fault`. A throwing call is taken to throw before it has any effect. A spool write that fails after the file was created (leaving an empty file) is not modelled.
- The lock:
  - `CreateLockFileAsync` belongs to a base class that is not part of this model. It is modelled as a test-and-set on a single `locked` flag, with no cross-process contention beyond that flag.
  - The un-awaited `ResetLockFileAsync` is modelled as an immediate release that always succeeds. A release that fails is not modelled; it would leave the lock held, and every later trigger would do nothing.
- Logging, `ConfigureAsync` trigger registration and async scheduling are left out.

=== FILE: BackgroundSync.dfy ===
/**
 The background synchronisation task: take the lock, ask the gate whether a
 run is due, push local changes, fetch the user's reports while connectivity
 lasts, spool them, and release the lock on every way out.

 Everything the background task asks the outside world (the clock, connectivity, the
 debugger, the logon service, the report service) is an input `World`; what
 outlives a run (the lock, the stored expiration, the spool file) is a
 `Store`. A run is a pure function from the two to the next `Store` and the
 trace of actions that completed.
 */
module BackgroundSync {
  import opened Wrappers

  /** Time is a count of seconds (UTC); the window the gate grants is five minutes. */
  const MinuteLength: int := 60
  const SyncWindow: int := 5 * MinuteLength

  /** The awaited calls of a run that can throw. */
  datatype Stage =
    | CheckingConnectivity // HasConnectivity at the gate (the connection profile may be null)
    | ClearingExpiration   // writing the empty expiration
    | ReadingExpiration    // reading and parsing the stored expiration
    | StampingExpiration   // writing the new expiration
    | RestoringLogon       // RestorePersistentLogonAsync
    | Pushing              // PushServerUpdatesAsync
    | RecheckingConnectivity // HasConnectivity read again after the push
    | Fetching             // GetReportsByUserAsync
    | Spooling             // creating and writing the spool file

  /** The report service's answer. */
  datatype FetchReply = FetchReply(hasErrors: bool, reports: seq<string>)

  /** What the outside world answers during one run. */
  datatype World = World(
    connectedAtGate: bool,      // HasConnectivity as the gate reads it
    debuggerAttached: bool,
    checkTime: int,             // UtcNow compared with the stored expiration
    stampTime: int,             // UtcNow the new expiration is computed from
    logonRestored: bool,        // what RestorePersistentLogonAsync answers
    connectedAfterPush: bool,   // HasConnectivity read again after the push
    reply: FetchReply,
    fault: Option<Stage>)       // the one call that throws, if any

  /** What outlives a run: the lock file, the stored expiration (empty as `None`), the spool file. */
  datatype Store = Store(locked: bool, expiration: Option<int>, spool: Option<seq<string>>)

  /** Calls of a run that completed, in the order they happen. */
  datatype Action =
    | LockAcquired
    | ExpirationCleared
    | ExpirationStamped(at: int)
    | LogonChecked(restored: bool)
    | UpdatesPushed
    | ReportsFetched
    | SpoolWritten
    | LockReleased

  /** How a run ended. */
  datatype Ending =
    | LockBusy            // another run holds the lock
    | GateClosed          // the gate answered false
    | Finished            // the body ran to its end
    | Threw(stage: Stage) // a call threw; the exception propagates out of the run

  /** The gate's verdict (`Failure` is the stage that threw), the expiration it leaves, its actions. */
  datatype GateOutcome = GateOutcome(verdict: Result<bool, Stage>, expiration: Option<int>, actions: seq<Action>)

  /** The outcome of one run. */
  datatype Run = Run(store: Store, actions: seq<Action>, ending: Ending)

  /** The outcome of the work after the gate: the spool it leaves, its actions, how it ended. */
  datatype Outcome = Outcome(spool: Option<seq<string>>, actions: seq<Action>, ending: Ending)

  predicate Throws(w: World, s: Stage)
  {
    w.fault == Some(s)
  }

  /** The gate read connectivity without throwing and found it. */
  predicate Online(w: World)
  {
    !Throws(w, CheckingConnectivity) && w.connectedAtGate
  }

  /** The gate read connectivity without throwing and found none. */
  predicate Offline(w: World)
  {
    !Throws(w, CheckingConnectivity) && !w.connectedAtGate
  }

  /** The second connectivity read, after the push, did not throw and found it. */
  predicate StillOnline(w: World)
  {
    !Throws(w, RecheckingConnectivity) && w.connectedAfterPush
  }

  /** The stored expiration is still in the future: strictly later than now. */
  predicate NotYetExpired(expiration: Option<int>, now: int)
  {
    expiration.Some? && expiration.value > now
  }

  /** The gate's checks let the run through to the stamping step. */
  predicate PassesChecks(expiration: Option<int>, w: World)
  {
    && Online(w)
    && (w.debuggerAttached || (!Throws(w, ReadingExpiration) && !NotYetExpired(expiration, w.checkTime)))
  }

  /** The gate answers true: checks passed, stamp written, logon restored. */
  predicate Opens(expiration: Option<int>, w: World)
  {
    && PassesChecks(expiration, w)
    && !Throws(w, StampingExpiration)
    && !Throws(w, RestoringLogon)
    && w.logonRestored
  }

  /** The calls the gate makes, as opposed to the work after it. */
  predicate InGate(stage: Stage)
  {
    stage in {CheckingConnectivity, ClearingExpiration, ReadingExpiration, StampingExpiration, RestoringLogon}
  }

  /**
   The run gets as far as calling `stage` (when it is the one call that
   throws, every earlier call returned). Which calls are reached depends on
   the answers before them, read here under that assumption.
   */
  predicate Reaches(expiration: Option<int>, w: World, stage: Stage)
  {
    match stage
    case CheckingConnectivity => true
    case ClearingExpiration => !w.connectedAtGate
    case ReadingExpiration => w.connectedAtGate && !w.debuggerAttached
    case StampingExpiration => w.connectedAtGate && (w.debuggerAttached || !NotYetExpired(expiration, w.checkTime))
    case RestoringLogon => w.connectedAtGate && (w.debuggerAttached || !NotYetExpired(expiration, w.checkTime))
    case Pushing => Opens(expiration, w)
    case RecheckingConnectivity => Opens(expiration, w)
    case Fetching => Opens(expiration, w) && w.connectedAfterPush
    case Spooling => Opens(expiration, w) && w.connectedAfterPush && !w.reply.hasErrors
  }

  /**
   `CanRunAsync`. Reading connectivity may itself throw. Without connectivity
   the expiration is cleared and the answer is false. Unless a debugger is
   attached, a stored expiration later than now answers false and leaves it
   alone. Otherwise the expiration becomes now plus five minutes and the answer
   is whatever restoring the logon answers. Nothing is caught: a call that
   throws ends the gate.
   */
  function CanRun(expiration: Option<int>, w: World): (g: GateOutcome)
    ensures Throws(w, CheckingConnectivity) ==> g == GateOutcome(Failure(CheckingConnectivity), expiration, [])
    ensures Offline(w) && !Throws(w, ClearingExpiration) ==>
      g.verdict == Success(false) && g.expiration == None && g.actions == [ExpirationCleared]
    ensures Offline(w) && Throws(w, ClearingExpiration) ==> g == GateOutcome(Failure(ClearingExpiration), expiration, [])
    ensures Online(w) && !w.debuggerAttached && Throws(w, ReadingExpiration) ==>
      g == GateOutcome(Failure(ReadingExpiration), expiration, [])
    ensures PassesChecks(expiration, w) && Throws(w, StampingExpiration) ==>
      g == GateOutcome(Failure(StampingExpiration), expiration, [])
    ensures PassesChecks(expiration, w) && Throws(w, RestoringLogon) ==>
      g == GateOutcome(Failure(RestoringLogon), Some(w.stampTime + SyncWindow), [ExpirationStamped(w.stampTime + SyncWindow)])
    ensures PassesChecks(expiration, w) && !Throws(w, StampingExpiration) && !Throws(w, RestoringLogon) ==>
      && g.verdict == Success(w.logonRestored)
      && g.actions == [ExpirationStamped(w.stampTime + SyncWindow), LogonChecked(w.logonRestored)]
    ensures Online(w) && !w.debuggerAttached && !Throws(w, ReadingExpiration)
            && NotYetExpired(expiration, w.checkTime) ==>
      g.verdict == Success(false) && g.expiration == expiration && g.actions == []
    ensures PassesChecks(expiration, w) && !Throws(w, StampingExpiration) ==>
      && g.expiration == Some(w.stampTime + SyncWindow)
      && |g.actions| >= 1 && g.actions[0] == ExpirationStamped(w.stampTime + SyncWindow)
    ensures g.verdict == Success(true) <==> Opens(expiration, w)
    ensures Opens(expiration, w) ==>
      g.actions == [ExpirationStamped(w.stampTime + SyncWindow), LogonChecked(true)]
    ensures g.verdict.Failure? ==> w.fault == Some(g.verdict.error)
    ensures g.expiration != expiration ==> g.expiration == None || g.expiration == Some(w.stampTime + SyncWindow)
    ensures InRunOrder(g.actions) && RanksWithin(g.actions, 1, 3)
    ensures ExpirationCleared in g.actions <==> Offline(w) && !Throws(w, ClearingExpiration)
    ensures ExpirationCleared in g.actions ==> g.expiration == None
    ensures UpdatesPushed !in g.actions && ReportsFetched !in g.actions && SpoolWritten !in g.actions
  {
    if Throws(w, CheckingConnectivity) then GateOutcome(Failure(CheckingConnectivity), expiration, [])
    else if !w.connectedAtGate then
      if Throws(w, ClearingExpiration) then GateOutcome(Failure(ClearingExpiration), expiration, [])
      else GateOutcome(Success(false), None, [ExpirationCleared])
    else if !w.debuggerAttached && Throws(w, ReadingExpiration) then
      GateOutcome(Failure(ReadingExpiration), expiration, [])
    else if !w.debuggerAttached && NotYetExpired(expiration, w.checkTime) then
      GateOutcome(Success(false), expiration, [])
    else if Throws(w, StampingExpiration) then
      GateOutcome(Failure(StampingExpiration), expiration, [])
    else
      var stamped := w.stampTime + SyncWindow;
      if Throws(w, RestoringLogon) then
        GateOutcome(Failure(RestoringLogon), Some(stamped), [ExpirationStamped(stamped)])
      else
        GateOutcome(Success(w.logonRestored), Some(stamped), [ExpirationStamped(stamped), LogonChecked(w.logonRestored)])
  }

  /**
   The body of the `try` once the gate has opened: push, then (unless the
   push threw) the connectivity-guarded fetch.
   */
  function Work(spool: Option<seq<string>>, w: World): (r: Outcome)
    ensures InRunOrder(r.actions) && RanksWithin(r.actions, 4, 6)
    ensures Throws(w, Pushing) ==> r == Outcome(spool, [], Threw(Pushing))
    ensures !Throws(w, Pushing) ==>
      && r.actions == [UpdatesPushed] + Fetch(spool, w).actions
      && r.spool == Fetch(spool, w).spool && r.ending == Fetch(spool, w).ending
    ensures UpdatesPushed in r.actions <==> !Throws(w, Pushing)
    ensures ReportsFetched in r.actions <==> !Throws(w, Pushing) && StillOnline(w) && !Throws(w, Fetching)
    ensures SpoolWritten in r.actions <==>
      !Throws(w, Pushing) && StillOnline(w) && !Throws(w, Fetching) && !w.reply.hasErrors && !Throws(w, Spooling)
    ensures r.spool == (if SpoolWritten in r.actions then Some(w.reply.reports) else spool)
    ensures r.ending == Finished || r.ending.Threw?
    ensures r.ending.Threw? ==> w.fault == Some(r.ending.stage)
    ensures ExpirationCleared !in r.actions
  {
    if Throws(w, Pushing) then Outcome(spool, [], Threw(Pushing))
    else
      var fetched := Fetch(spool, w);
      JoinInOrder([UpdatesPushed], fetched.actions, 4, 4, 6);
      assert UpdatesPushed in [UpdatesPushed] + fetched.actions;
      assert ReportsFetched in [UpdatesPushed] + fetched.actions <==> ReportsFetched in fetched.actions;
      assert SpoolWritten in [UpdatesPushed] + fetched.actions <==> SpoolWritten in fetched.actions;
      assert ExpirationCleared in [UpdatesPushed] + fetched.actions <==> ExpirationCleared in fetched.actions;
      fetched.(actions := [UpdatesPushed] + fetched.actions)
  }

  /**
   The block after the push: read connectivity again (which may throw) and, if
   it still holds, fetch; if the fetch has no errors, replace the spool with
   the reports. Each call that is reached and throws ends the block there.
   */
  function Fetch(spool: Option<seq<string>>, w: World): (r: Outcome)
    ensures InRunOrder(r.actions) && RanksWithin(r.actions, 5, 6)
    ensures Throws(w, RecheckingConnectivity) ==> r == Outcome(spool, [], Threw(RecheckingConnectivity))
    ensures !Throws(w, RecheckingConnectivity) && !w.connectedAfterPush ==> r == Outcome(spool, [], Finished)
    ensures StillOnline(w) && Throws(w, Fetching) ==> r == Outcome(spool, [], Threw(Fetching))
    ensures StillOnline(w) && !Throws(w, Fetching) && w.reply.hasErrors ==>
      r == Outcome(spool, [ReportsFetched], Finished)
    ensures StillOnline(w) && !Throws(w, Fetching) && !w.reply.hasErrors && Throws(w, Spooling) ==>
      r == Outcome(spool, [ReportsFetched], Threw(Spooling))
    ensures StillOnline(w) && !Throws(w, Fetching) && !w.reply.hasErrors && !Throws(w, Spooling) ==>
      r == Outcome(Some(w.reply.reports), [ReportsFetched, SpoolWritten], Finished)
    ensures ReportsFetched in r.actions <==> StillOnline(w) && !Throws(w, Fetching)
    ensures SpoolWritten in r.actions <==>
      StillOnline(w) && !Throws(w, Fetching) && !w.reply.hasErrors && !Throws(w, Spooling)
    ensures r.spool == (if SpoolWritten in r.actions then Some(w.reply.reports) else spool)
    ensures r.ending.Threw? ==> w.fault == Some(r.ending.stage)
    ensures ExpirationCleared !in r.actions
  {
    if Throws(w, RecheckingConnectivity) then Outcome(spool, [], Threw(RecheckingConnectivity))
    else if !w.connectedAfterPush then Outcome(spool, [], Finished)
    else if Throws(w, Fetching) then Outcome(spool, [], Threw(Fetching))
    else if w.reply.hasErrors then Outcome(spool, [ReportsFetched], Finished)
    else if Throws(w, Spooling) then Outcome(spool, [ReportsFetched], Threw(Spooling))
    else Outcome(Some(w.reply.reports), [ReportsFetched, SpoolWritten], Finished)
  }

  /** The gate fails exactly when the one throwing call is a gate call it reaches. */
  lemma GateThrowsWhenReached(expiration: Option<int>, w: World)
    ensures CanRun(expiration, w).verdict.Failure? <==>
      w.fault.Some? && InGate(w.fault.value) && Reaches(expiration, w, w.fault.value)
  {
  }

  /** Once the gate has opened, the work throws exactly when it reaches the throwing call. */
  lemma WorkThrowsWhenReached(expiration: Option<int>, spool: Option<seq<string>>, w: World)
    requires Opens(expiration, w)
    ensures Work(spool, w).ending.Threw? <==> w.fault.Some? && Reaches(expiration, w, w.fault.value)
  {
  }

  /** The run pushes: the lock was free, the gate opened and the push did not throw. */
  predicate Pushes(s: Store, w: World)
  {
    !s.locked && Opens(s.expiration, w) && !Throws(w, Pushing)
  }

  /** The run fetches: it pushed, connectivity held at the second check, the fetch did not throw. */
  predicate Fetches(s: Store, w: World)
  {
    Pushes(s, w) && StillOnline(w) && !Throws(w, Fetching)
  }

  /** The run replaces the spool: it fetched a reply without errors and writing did not throw. */
  predicate Spools(s: Store, w: World)
  {
    Fetches(s, w) && !w.reply.hasErrors && !Throws(w, Spooling)
  }

  /** The position of each action in a run. */
  function Rank(a: Action): nat
  {
    match a
    case LockAcquired => 0
    case ExpirationCleared => 1
    case ExpirationStamped(_) => 2
    case LogonChecked(_) => 3
    case UpdatesPushed => 4
    case ReportsFetched => 5
    case SpoolWritten => 6
    case LockReleased => 7
  }

  /** Actions appear in run order, each at most once. */
  predicate InRunOrder(actions: seq<Action>)
  {
    forall i, j :: 0 <= i < j < |actions| ==> Rank(actions[i]) < Rank(actions[j])
  }

  /** Every action ranks between `lo` and `hi`. */
  predicate RanksWithin(actions: seq<Action>, lo: nat, hi: nat)
  {
    forall i :: 0 <= i < |actions| ==> lo <= Rank(actions[i]) <= hi
  }

  /** Two ordered pieces, the first ranking wholly below the second, join in order. */
  lemma JoinInOrder(a: seq<Action>, b: seq<Action>, lo: nat, mid: nat, hi: nat)
    requires InRunOrder(a) && InRunOrder(b)
    requires lo <= mid < hi
    requires RanksWithin(a, lo, mid) && RanksWithin(b, mid + 1, hi)
    ensures InRunOrder(a + b) && RanksWithin(a + b, lo, hi)
  {
  }

  /** A completed run that took the lock: it starts by taking it and ends by giving it back. */
  predicate Bracketed(r: Run)
  {
    && |r.actions| >= 2
    && r.actions[0] == LockAcquired
    && r.actions[|r.actions| - 1] == LockReleased
    && r.ending != LockBusy
    && !r.store.locked
  }

  /**
   `DoRunAsync`. A held lock makes the run a no-op. Otherwise the lock is
   taken, the gate and the work run inside `try`, and `finally` releases the
   lock whether the body returned early, finished or threw.
   */
  function DoRun(s: Store, w: World): (r: Run)
    ensures s.locked ==> r == Run(s, [], LockBusy)
    ensures !s.locked ==> Bracketed(r)
    ensures InRunOrder(r.actions)
    ensures UpdatesPushed in r.actions <==> Pushes(s, w)
    ensures ReportsFetched in r.actions <==> Fetches(s, w)
    ensures SpoolWritten in r.actions <==> Spools(s, w)
    ensures r.store.spool == (if Spools(s, w) then Some(w.reply.reports) else s.spool)
    ensures r.ending.Threw? ==> w.fault == Some(r.ending.stage)
    ensures !s.locked ==> (r.ending.Threw? <==> w.fault.Some? && Reaches(s.expiration, w, w.fault.value))
    ensures !s.locked ==> r.ending == Attempt(s.(locked := true), w).ending
    ensures !s.locked ==> r.actions == [LockAcquired] + Attempt(s.(locked := true), w).actions + [LockReleased]
    ensures !s.locked ==> r.store.expiration == CanRun(s.expiration, w).expiration
    ensures ExpirationCleared in r.actions ==> r.store.expiration == None
  {
    if s.locked then Run(s, [], LockBusy) else Locked(s, w)
  }

  /** The lock was free: take it, run the `try` body, and release it in `finally`. */
  function Locked(s: Store, w: World): (r: Run)
    requires !s.locked
    ensures Bracketed(r)
    ensures InRunOrder(r.actions)
    ensures UpdatesPushed in r.actions <==> Opens(s.expiration, w) && !Throws(w, Pushing)
    ensures ReportsFetched in r.actions <==> Fetches(s, w)
    ensures SpoolWritten in r.actions <==> Spools(s, w)
    ensures r.store.spool == (if Spools(s, w) then Some(w.reply.reports) else s.spool)
    ensures r.ending.Threw? ==> w.fault == Some(r.ending.stage)
    ensures r.ending.Threw? <==> w.fault.Some? && Reaches(s.expiration, w, w.fault.value)
    ensures r.ending == Attempt(s.(locked := true), w).ending
    ensures r.actions == [LockAcquired] + Attempt(s.(locked := true), w).actions + [LockReleased]
    ensures r.store.expiration == CanRun(s.expiration, w).expiration
    ensures ExpirationCleared in r.actions ==> r.store.expiration == None
  {
    var body := Attempt(s.(locked := true), w);
    JoinInOrder([LockAcquired], body.actions, 0, 0, 6);
    JoinInOrder([LockAcquired] + body.actions, [LockReleased], 0, 6, 7);
    var actions := [LockAcquired] + body.actions + [LockReleased];
    assert actions[0] == LockAcquired && actions[|actions| - 1] == LockReleased;
    InsideBracket(body.actions, UpdatesPushed);
    InsideBracket(body.actions, ReportsFetched);
    InsideBracket(body.actions, SpoolWritten);
    InsideBracket(body.actions, ExpirationCleared);
    Run(body.store.(locked := false), actions, body.ending)
  }

  /** Taking and releasing the lock around a trace adds no other action. */
  lemma InsideBracket(actions: seq<Action>, a: Action)
    requires a != LockAcquired && a != LockReleased
    ensures a in [LockAcquired] + actions + [LockReleased] <==> a in actions
  {
  }

  /**
   What runs inside `try` once the lock is held: the gate, and the work when
   the gate opens. An early `return` and an exception both leave with the
   actions completed so far.
   */
  function Attempt(s: Store, w: World): (r: Run)
    ensures r.store.locked == s.locked
    ensures InRunOrder(r.actions) && RanksWithin(r.actions, 1, 6)
    ensures UpdatesPushed in r.actions <==> Opens(s.expiration, w) && !Throws(w, Pushing)
    ensures ReportsFetched in r.actions <==>
      Opens(s.expiration, w) && !Throws(w, Pushing) && StillOnline(w) && !Throws(w, Fetching)
    ensures SpoolWritten in r.actions <==>
      && Opens(s.expiration, w) && !Throws(w, Pushing) && StillOnline(w) && !Throws(w, Fetching)
      && !w.reply.hasErrors && !Throws(w, Spooling)
    ensures r.store.spool == (if SpoolWritten in r.actions then Some(w.reply.reports) else s.spool)
    ensures r.ending != LockBusy
    ensures r.ending.Threw? ==> w.fault == Some(r.ending.stage)
    ensures r.ending.Threw? <==> w.fault.Some? && Reaches(s.expiration, w, w.fault.value)
    ensures CanRun(s.expiration, w).verdict.Failure? ==>
      r.ending == Threw(CanRun(s.expiration, w).verdict.error) && r.actions == CanRun(s.expiration, w).actions
    ensures CanRun(s.expiration, w).verdict == Success(false) ==>
      r.ending == GateClosed && r.actions == CanRun(s.expiration, w).actions
    ensures Opens(s.expiration, w) ==> r.ending == Work(s.spool, w).ending
    ensures Opens(s.expiration, w) ==> r.actions == CanRun(s.expiration, w).actions + Work(s.spool, w).actions
    ensures r.store.expiration == CanRun(s.expiration, w).expiration
    ensures ExpirationCleared in r.actions ==> r.store.expiration == None
  {
    var g := CanRun(s.expiration, w);
    GateThrowsWhenReached(s.expiration, w);
    match g.verdict
    case Failure(stage) =>
      Run(s.(expiration := g.expiration), g.actions, Threw(stage))
    case Success(open) =>
      if !open then Run(s.(expiration := g.expiration), g.actions, GateClosed)
      else
        var work := Work(s.spool, w);
        WorkThrowsWhenReached(s.expiration, s.spool, w);
        JoinInOrder(g.actions, work.actions, 1, 3, 6);
        assert UpdatesPushed in g.actions + work.actions <==> UpdatesPushed in work.actions;
        assert ReportsFetched in g.actions + work.actions <==> ReportsFetched in work.actions;
        assert SpoolWritten in g.actions + work.actions <==> SpoolWritten in work.actions;
        assert ExpirationCleared in g.actions + work.actions <==> ExpirationCleared in g.actions;
        Run(s.(expiration := g.expiration, spool := work.spool), g.actions + work.actions, work.ending)
  }

  /** Without connectivity at the gate the expiration is emptied and nothing is pushed or fetched. */
  lemma OfflineClearsExpiration(s: Store, w: World)
    requires !s.locked && Offline(w) && !Throws(w, ClearingExpiration)
    ensures var r := DoRun(s, w);
      && r.store.expiration == None
      && r.ending == GateClosed
      && r.actions == [LockAcquired, ExpirationCleared, LockReleased]
      && r.store.spool == s.spool
  {
  }

  /** With no debugger, an expiration strictly later than now closes the gate and is kept. */
  lemma UnexpiredSkips(s: Store, w: World)
    requires !s.locked && Online(w) && !w.debuggerAttached && !Throws(w, ReadingExpiration)
    requires NotYetExpired(s.expiration, w.checkTime)
    ensures var r := DoRun(s, w);
      && r.store == s
      && r.ending == GateClosed
      && r.actions == [LockAcquired, LockReleased]
  {
  }

  /** An expiration equal to now counts as expired: the run goes on to stamp a new one. */
  lemma ExpirationAtNowIsExpired(s: Store, w: World)
    requires !s.locked && Online(w) && !Throws(w, ReadingExpiration) && !Throws(w, StampingExpiration)
    requires s.expiration == Some(w.checkTime)
    ensures var r := DoRun(s, w);
      && r.store.expiration == Some(w.stampTime + SyncWindow)
      && r.actions[1] == ExpirationStamped(w.stampTime + SyncWindow)
  {
  }

  /** With a debugger attached the stored expiration has no say in what the run does. */
  lemma DebuggerIgnoresExpiration(s: Store, w: World, other: Option<int>)
    requires w.debuggerAttached
    ensures var a := DoRun(s, w);
      var b := DoRun(s.(expiration := other), w);
      && a.actions == b.actions && a.ending == b.ending
      && a.store.spool == b.store.spool && a.store.locked == b.store.locked
  {
    DebuggerGateIgnoresExpiration(s.expiration, other, w);
  }

  /** With a debugger attached the gate's verdict and actions do not depend on the expiration. */
  lemma DebuggerGateIgnoresExpiration(e1: Option<int>, e2: Option<int>, w: World)
    requires w.debuggerAttached
    ensures CanRun(e1, w).verdict == CanRun(e2, w).verdict
    ensures CanRun(e1, w).actions == CanRun(e2, w).actions
  {
  }

  /** A gate that gets past its checks answers exactly what the logon restore answers. */
  lemma GateAnswersLogon(s: Store, w: World)
    requires !s.locked && PassesChecks(s.expiration, w)
    requires w.fault == None
    ensures var r := DoRun(s, w);
      && r.store.expiration == Some(w.stampTime + SyncWindow)
      && (UpdatesPushed in r.actions <==> w.logonRestored)
      && (r.ending == GateClosed <==> !w.logonRestored)
  {
  }

  /**
   A trigger firing inside the five-minute window of a run that stamped the
   expiration finds the gate closed (no debugger, no read failure): repeated
   triggers do not run the sync twice.
   */
  lemma RetriggerWithinWindowSkips(s: Store, w1: World, w2: World)
    requires !s.locked && PassesChecks(s.expiration, w1) && !Throws(w1, StampingExpiration)
    requires Online(w2) && !w2.debuggerAttached && !Throws(w2, ReadingExpiration)
    requires w2.checkTime < w1.stampTime + SyncWindow
    ensures var r1 := DoRun(s, w1);
      var r2 := DoRun(r1.store, w2);
      && r2.ending == GateClosed
      && UpdatesPushed !in r2.actions
      && r2.store == r1.store
  {
  }

  /** After a run that found no connectivity, the next connected run is not held back by the window. */
  lemma OfflineRunRetriesImmediately(s: Store, w1: World, w2: World)
    requires !s.locked && Offline(w1) && !Throws(w1, ClearingExpiration)
    requires w2.connectedAtGate && w2.fault == None && w2.logonRestored
    ensures var r2 := DoRun(DoRun(s, w1).store, w2);
      && UpdatesPushed in r2.actions
      && r2.store.expiration == Some(w2.stampTime + SyncWindow)
  {
  }

  /**
   A connectivity read that throws ends the run, but `finally` still gives the
   lock back: at the gate nothing else happens, after the push only the push
   has happened.
   */
  lemma ConnectivityFaultReleasesLock(s: Store, w: World)
    requires !s.locked
    ensures Throws(w, CheckingConnectivity) ==>
      DoRun(s, w) == Run(s, [LockAcquired, LockReleased], Threw(CheckingConnectivity))
    ensures Throws(w, RecheckingConnectivity) && Opens(s.expiration, w) ==>
      var r := DoRun(s, w);
      && r.actions == [LockAcquired, ExpirationStamped(w.stampTime + SyncWindow), LogonChecked(true),
                       UpdatesPushed, LockReleased]
      && r.ending == Threw(RecheckingConnectivity)
      && !r.store.locked && r.store.spool == s.spool
  {
  }

  /** Runs fired one after another, each seeing the store the previous one left. */
  function RunAll(s: Store, worlds: seq<World>): (runs: seq<Run>)
    ensures |runs| == |worlds|
    decreases |worlds|
  {
    if worlds == [] then []
    else
      var first := DoRun(s, worlds[0]);
      [first] + RunAll(first.store, worlds[1..])
  }

  /** The store after the last of a series of runs. */
  function Final(s: Store, worlds: seq<World>): Store
  {
    if worlds == [] then s else RunAll(s, worlds)[|worlds| - 1].store
  }

  /** Each run of a series starts from the store the run before it left. */
  lemma {:induction false} RunsChain(s: Store, worlds: seq<World>, i: nat)
    requires 0 < i < |worlds|
    ensures RunAll(s, worlds)[i] == DoRun(RunAll(s, worlds)[i - 1].store, worlds[i])
    decreases |worlds|
  {
    var first := DoRun(s, worlds[0]);
    if i > 1 {
      RunsChain(first.store, worlds[1..], i - 1);
    }
  }

  /**
   Runs fired one after another from a free lock never find it held: each one
   takes it, each one gives it back, and the lock is free at the end.
   */
  lemma {:induction false} SequentialRunsNeverBlock(s: Store, worlds: seq<World>)
    requires !s.locked
    ensures !Final(s, worlds).locked
    ensures forall i :: 0 <= i < |worlds| ==> Bracketed(RunAll(s, worlds)[i])
    decreases |worlds|
  {
    if worlds != [] {
      var first := DoRun(s, worlds[0]);
      SequentialRunsNeverBlock(first.store, worlds[1..]);
      assert Bracketed(RunAll(s, worlds)[|worlds| - 1]) by {
        if |worlds| > 1 {
          assert RunAll(s, worlds)[|worlds| - 1] == RunAll(first.store, worlds[1..])[|worlds| - 2];
        }
      }
      forall i | 0 <= i < |worlds|
        ensures Bracketed(RunAll(s, worlds)[i])
      {
        if i > 0 {
          assert RunAll(s, worlds)[i] == RunAll(first.store, worlds[1..])[i - 1];
        }
      }
    }
  }

  /** While one run holds the lock, a run fired by another trigger does nothing at all. */
  lemma OverlappingTriggerIsNoOp(s: Store, w: World)
    requires s.locked
    ensures DoRun(s, w).store == s && DoRun(s, w).actions == [] && DoRun(s, w).ending == LockBusy
  {
  }
}

=== FILE: Host.dfy ===
/**
 The observable effects a view-model produces through its host (the view that
 owns it) and through the service proxies it calls. Each step function of the
 model appends to an ordered trace of these.
 */
module Host {
  import opened Wrappers

  datatype Effect =
      /** PropertyChanged raised for `key`, dispatched onto the UI thread. */
    | PropertyChanged(key: string)
      /** ShowAlertAsync(ErrorBucket): a dialog listing the errors. */
    | ErrorAlert(errors: seq<string>)
      /** ShowAlertAsync(string): a dialog with a plain message. */
    | MessageAlert(text: string)
      /** ShowView(type): navigation to the view bound to a view-model interface. */
    | ViewShown(view: string)
      /** IRegisterServiceProxy.Register called with the four form fields. */
    | RegisterRequested(username: Option<string>, email: Option<string>,
                        password: Option<string>, confirm: Option<string>)
}

=== FILE: RegisterPage.dfy ===
/**
 The registration page's view-model: four string properties held in the
 view-model's property bag, the validation rules over them, and the command
 that either calls the register service or shows the validation errors.
 */
module RegisterPage {
  import opened Wrappers
  import opened Host
  import opened ViewModelBase

  const UsernameKey: string := "Username"
  const EmailKey: string := "Email"
  const PasswordKey: string := "Password"
  const ConfirmKey: string := "Confirm"

  const UsernameRequired: string := "Username is required."
  const EmailRequired: string := "Email is required."
  const PasswordRequired: string := "Password is required."
  const ConfirmRequired: string := "Confirm password is required."
  const PasswordsDiffer: string := "The passwords do not match."

  /** The view the success callback navigates to. */
  const LogonView: string := "ILogonPageViewModel"

  /** The four bound fields; `None` is a null string. */
  datatype Form = Form(
    username: Option<string>,
    email: Option<string>,
    password: Option<string>,
    confirm: Option<string>)

  /** `string.IsNullOrEmpty`: a null string, or one of length zero. */
  function NullOrEmpty(s: Option<string>): (b: bool)
    ensures b <==> (s.None? || |s.value| == 0)
  {
    s == None || s == Some("")
  }

  /** The position of each message in the order the rules run. */
  function Rank(message: string): nat
  {
    if message == UsernameRequired then 0
    else if message == EmailRequired then 1
    else if message == PasswordRequired then 2
    else if message == ConfirmRequired then 3
    else 4
  }

  /** Every message is one of the five, and they appear in rule order with none repeated. */
  predicate InRuleOrder(errors: seq<string>)
  {
    && (forall i :: 0 <= i < |errors| ==>
          errors[i] in {UsernameRequired, EmailRequired, PasswordRequired, ConfirmRequired, PasswordsDiffer})
    && (forall i, j :: 0 <= i < j < |errors| ==> Rank(errors[i]) < Rank(errors[j]))
  }

  /** The message for one rule, present only when the rule fires. */
  function When(fires: bool, message: string): seq<string>
  {
    if fires then [message] else []
  }

  /**
   `Validate`: a "... is required." error for each empty field, then a
   mismatch error when a non-empty password differs from the confirmation.
   */
  function Validate(f: Form): (errors: seq<string>)
    ensures (UsernameRequired in errors) <==> NullOrEmpty(f.username)
    ensures (EmailRequired in errors) <==> NullOrEmpty(f.email)
    ensures (PasswordRequired in errors) <==> NullOrEmpty(f.password)
    ensures (ConfirmRequired in errors) <==> NullOrEmpty(f.confirm)
    ensures (PasswordsDiffer in errors) <==> !NullOrEmpty(f.password) && f.password != f.confirm
    ensures InRuleOrder(errors)
    ensures |errors| <= 4
    ensures errors == [] <==>
      && !NullOrEmpty(f.username) && !NullOrEmpty(f.email)
      && !NullOrEmpty(f.password) && !NullOrEmpty(f.confirm)
      && f.password == f.confirm
  {
    RulesReport(f);
    RulesInOrder(f);
    Rules(f)
  }

  /** The five rules in the order `Validate` runs them, each adding its message when it fires. */
  function Rules(f: Form): seq<string>
  {
    When(NullOrEmpty(f.username), UsernameRequired)
      + When(NullOrEmpty(f.email), EmailRequired)
      + When(NullOrEmpty(f.password), PasswordRequired)
      + When(NullOrEmpty(f.confirm), ConfirmRequired)
      + When(!NullOrEmpty(f.password) && f.password != f.confirm, PasswordsDiffer)
  }

  /** Each message is reported exactly when its rule fires. */
  lemma RulesReport(f: Form)
    ensures (UsernameRequired in Rules(f)) <==> NullOrEmpty(f.username)
    ensures (EmailRequired in Rules(f)) <==> NullOrEmpty(f.email)
    ensures (PasswordRequired in Rules(f)) <==> NullOrEmpty(f.password)
    ensures (ConfirmRequired in Rules(f)) <==> NullOrEmpty(f.confirm)
    ensures (PasswordsDiffer in Rules(f)) <==> !NullOrEmpty(f.password) && f.password != f.confirm
  {
    MessagesDistinct();
  }

  /** The messages come out in rule order, and an empty password and a mismatch never both fire. */
  lemma RulesInOrder(f: Form)
    ensures InRuleOrder(Rules(f))
    ensures |Rules(f)| <= 4
  {
    MessagesDistinct();
    var user := When(NullOrEmpty(f.username), UsernameRequired);
    var email := user + When(NullOrEmpty(f.email), EmailRequired);
    var password := email + When(NullOrEmpty(f.password), PasswordRequired);
    var confirm := password + When(NullOrEmpty(f.confirm), ConfirmRequired);
    AppendRule([], NullOrEmpty(f.username), UsernameRequired);
    AppendRule(user, NullOrEmpty(f.email), EmailRequired);
    AppendRule(email, NullOrEmpty(f.password), PasswordRequired);
    AppendRule(password, NullOrEmpty(f.confirm), ConfirmRequired);
    AppendRule(confirm, !NullOrEmpty(f.password) && f.password != f.confirm, PasswordsDiffer);
  }

  /** Every message in `errors` comes from a rule that runs before the one ranked `n`. */
  predicate RanksBelow(errors: seq<string>, n: nat)
  {
    forall i :: 0 <= i < |errors| ==> Rank(errors[i]) < n
  }

  /** Appending the message of a later rule keeps the errors in rule order. */
  lemma AppendRule(errors: seq<string>, fires: bool, message: string)
    requires InRuleOrder(errors) && RanksBelow(errors, Rank(message))
    requires message in {UsernameRequired, EmailRequired, PasswordRequired, ConfirmRequired, PasswordsDiffer}
    ensures InRuleOrder(errors + When(fires, message))
    ensures RanksBelow(errors + When(fires, message), Rank(message) + 1)
  {
  }

  /** The five messages are pairwise different, so each one identifies its rule. */
  lemma MessagesDistinct()
    ensures UsernameRequired != EmailRequired && UsernameRequired != PasswordRequired
    ensures UsernameRequired != ConfirmRequired && UsernameRequired != PasswordsDiffer
    ensures EmailRequired != PasswordRequired && EmailRequired != ConfirmRequired
    ensures EmailRequired != PasswordsDiffer && PasswordRequired != ConfirmRequired
    ensures PasswordRequired != PasswordsDiffer && ConfirmRequired != PasswordsDiffer
  {
  }

  /**
   The four property getters, each a `GetValue<string>()` under its own name:
   a field never set or set to null reads null, a field set to a string reads that string.
   */
  function ReadForm(vm: ViewModel): (f: Form)
    ensures GetValue(vm, UsernameKey) == Null ==> f.username == None
    ensures GetValue(vm, EmailKey) == Null ==> f.email == None
    ensures GetValue(vm, PasswordKey) == Null ==> f.password == None
    ensures GetValue(vm, ConfirmKey) == Null ==> f.confirm == None
    ensures GetValue(vm, UsernameKey).Text? ==> f.username == Some(GetValue(vm, UsernameKey).s)
    ensures GetValue(vm, EmailKey).Text? ==> f.email == Some(GetValue(vm, EmailKey).s)
    ensures GetValue(vm, PasswordKey).Text? ==> f.password == Some(GetValue(vm, PasswordKey).s)
    ensures GetValue(vm, ConfirmKey).Text? ==> f.confirm == Some(GetValue(vm, ConfirmKey).s)
  {
    Form(ReadText(vm, UsernameKey), ReadText(vm, EmailKey),
         ReadText(vm, PasswordKey), ReadText(vm, ConfirmKey))
  }

  /** The form reads only its four keys, so a change confined to the busy flag leaves it alone. */
  lemma FormIgnoresBusyFlag(vm: ViewModel, r: ViewModel)
    requires forall k :: k != IsBusyKey ==> GetValue(r, k) == GetValue(vm, k)
    ensures ReadForm(r) == ReadForm(vm)
  {
    assert UsernameKey != IsBusyKey && EmailKey != IsBusyKey;
    assert PasswordKey != IsBusyKey && ConfirmKey != IsBusyKey;
  }

  /** The effect of calling the register proxy with the fields as read from `vm`. */
  function RegisterCall(vm: ViewModel): Effect
  {
    var f := ReadForm(vm);
    RegisterRequested(f.username, f.email, f.password, f.confirm)
  }

  /**
   `DoRegistration`: validate; with no errors enter the busy state and then
   call the register service with the four fields; with errors show exactly
   one alert listing them and change nothing else.
   */
  function DoRegistration(vm: ViewModel): (r: ViewModel)
    ensures var f := ReadForm(vm);
      Validate(f) == [] ==>
        && r.busyCount == vm.busyCount + 1
        && r.effects == EnterBusy(vm).effects + [RegisterRequested(f.username, f.email, f.password, f.confirm)]
        && r.values == EnterBusy(vm).values && r.subscribed == vm.subscribed
    ensures Validate(ReadForm(vm)) != [] ==>
      r == vm.(effects := vm.effects + [ErrorAlert(Validate(ReadForm(vm)))])
    ensures ReadForm(r) == ReadForm(vm)
    ensures Coherent(vm) ==> Coherent(r)
  {
    var errors := Validate(ReadForm(vm));
    var called := if errors == [] then
        var busy := EnterBusy(vm);
        busy.(effects := busy.effects + [RegisterCall(busy)])
      else vm;
    // the validation errors go straight to the host's alert, not through the failure handler
    if errors != [] then called.(effects := called.effects + [ErrorAlert(errors)]) else called
  }

  /** The text of the success alert, formatted with the new user's id. */
  function CreatedMessage(userId: string): (m: string)
    ensures |m| > |userId| && m[|m| - |userId|..] == userId
    ensures m[..|m| - |userId|] == "The new user has been created.\r\n\r\nUser ID: "
  {
    "The new user has been created.\r\n\r\nUser ID: " + userId
  }

  /** The success callback: an alert naming the new user, then navigation to the logon view. */
  function OnRegistered(vm: ViewModel, userId: string): (r: ViewModel)
    ensures r.values == vm.values && r.busyCount == vm.busyCount && r.subscribed == vm.subscribed
    ensures r.effects == vm.effects + [MessageAlert(CreatedMessage(userId)), ViewShown(LogonView)]
  {
    vm.(effects := vm.effects + [MessageAlert(CreatedMessage(userId)), ViewShown(LogonView)])
  }

  /** How the register service answers. */
  datatype Reply = Registered(userId: string) | Rejected(errors: seq<string>)

  /**
   A whole registration: the command, then (when the service was called) its
   success or failure callback followed by the completion handler.
   */
  function Register(vm: ViewModel, reply: Reply): (r: ViewModel)
    ensures Validate(ReadForm(vm)) != [] ==> r == DoRegistration(vm)
    ensures r.busyCount == vm.busyCount
    ensures Coherent(vm) ==> Coherent(r) && IsBusy(r) == IsBusy(vm)
    ensures ReadForm(r) == ReadForm(vm)
  {
    var started := DoRegistration(vm);
    if Validate(ReadForm(vm)) != [] then started
    else
      var answered := match reply
        case Registered(id) => OnRegistered(started, id)
        case Rejected(errs) => Fail(started, errs);
      SameValuesReadAlike(started, answered);
      FormIgnoresBusyFlag(started, Complete(answered));
      Complete(answered)
  }

  /**
   The four setters (`SetValue(value)` under the property's own name) and the
   getters round-trip: the page reads back exactly the strings bound to it,
   and each setter notifies once per write.
   */
  lemma FilledFormReadsBack(u: string, e: string, p: string, c: string)
    ensures var vm := SetValue(SetValue(SetValue(SetValue(Subscribe(New()),
                        Text(u), UsernameKey), Text(e), EmailKey), Text(p), PasswordKey), Text(c), ConfirmKey);
      && ReadForm(vm) == Form(Some(u), Some(e), Some(p), Some(c))
      && vm.effects == [PropertyChanged(UsernameKey), PropertyChanged(EmailKey),
                        PropertyChanged(PasswordKey), PropertyChanged(ConfirmKey)]
  {
  }

  /** Each rule fires on its own: one empty field among valid ones gives exactly its error. */
  lemma SingleMissingField(p: string)
    requires p != ""
    ensures Validate(Form(None, Some("e"), Some(p), Some(p))) == [UsernameRequired]
    ensures Validate(Form(Some("u"), Some(""), Some(p), Some(p))) == [EmailRequired]
    ensures Validate(Form(Some("u"), Some("e"), None, Some(p))) == [PasswordRequired]
    ensures Validate(Form(Some("u"), Some("e"), Some(p), None)) == [ConfirmRequired, PasswordsDiffer]
  {
  }

  /** All four fields empty: four errors, in rule order, and no mismatch. */
  lemma EverythingMissing()
    ensures Validate(Form(None, Some(""), None, Some("")))
      == [UsernameRequired, EmailRequired, PasswordRequired, ConfirmRequired]
  {
  }

  /** An empty password never yields the mismatch error, whatever the confirmation. */
  lemma EmptyPasswordNeverMismatches(f: Form)
    requires NullOrEmpty(f.password)
    ensures PasswordsDiffer !in Validate(f)
    ensures PasswordRequired in Validate(f)
  {
  }
}

=== FILE: ViewModelBase.dfy ===
/**
 The view-model base class: a string-keyed property bag whose writes raise a
 change notification, plus a busy counter that drives the bindable `IsBusy`
 flag. The class is modelled as an immutable record and every operation as a
 pure step function returning the next record.
 */
module ViewModelBase {
  import opened Wrappers
  import opened Host

  /** What a property slot holds: the C# `object` restricted to the kinds these view-models store. */
  datatype Value = Null | Flag(b: bool) | Text(s: string)

  /** Why a typed read could not convert the stored object. */
  datatype ConversionError = NotABoolean(text: string)

  /** The property name `IsBusy` binds to (the caller-member name of its accessors). */
  const IsBusyKey: string := "IsBusy"

  /**
   The state of one view-model: the `Values` dictionary, the private
   `BusyCount`, whether anything has subscribed to `PropertyChanged`, and the
   effects delivered so far through the host.
   */
  datatype ViewModel = ViewModel(
    values: map<string, Value>,
    busyCount: int,
    subscribed: bool,
    effects: seq<Effect>)

  /**
   A freshly constructed view-model: empty dictionary, count zero, no handler
   attached yet and nothing delivered.
   */
  function New(): (r: ViewModel)
    ensures forall k :: GetValue(r, k) == Null
    ensures r.busyCount == 0 && !r.subscribed && r.effects == []
  {
    ViewModel(map[], 0, false, [])
  }

  /** Attaches a `PropertyChanged` handler, as the binding engine does. */
  function Subscribe(vm: ViewModel): (r: ViewModel)
    ensures r.subscribed
    ensures r.values == vm.values && r.busyCount == vm.busyCount && r.effects == vm.effects
  {
    vm.(subscribed := true)
  }

  /** The untyped read: a key never written reads as null, any other reads what was stored. */
  function GetValue(vm: ViewModel, key: string): (r: Value)
    ensures key in vm.values ==> r == vm.values[key]
    ensures key !in vm.values ==> r == Null
  {
    if key in vm.values then vm.values[key] else Null
  }

  /** `Boolean.ToString`, which `Convert.ChangeType` uses to turn a bool into a string. */
  function FlagText(b: bool): (t: string)
    ensures t != ""
    ensures b ==> t == "True"
    ensures !b ==> t == "False"
  {
    if b then "True" else "False"
  }

  /** `Boolean.Parse` on the exact spellings `FlagText` produces. */
  function ParseFlag(t: string): (r: Result<bool, ConversionError>)
    ensures r.Success? <==> (t == "True" || t == "False")
    ensures r.Success? ==> FlagText(r.value) == t
    ensures r.Failure? ==> r.error == NotABoolean(t)
  {
    if t == "True" then Success(true)
    else if t == "False" then Success(false)
    else Failure(NotABoolean(t))
  }

  /** `GetValue<bool>`: null reads as `default(bool)`, a stored object is converted. */
  function ReadFlag(vm: ViewModel, key: string): (r: Result<bool, ConversionError>)
    ensures key !in vm.values ==> r == Success(false)
    ensures key in vm.values && vm.values[key].Flag? ==> r == Success(vm.values[key].b)
    ensures GetValue(vm, key) == Null ==> r == Success(false)
    ensures GetValue(vm, key).Text? ==> r == ParseFlag(GetValue(vm, key).s)
    ensures GetValue(vm, key).Text? ==> (r.Failure? <==> GetValue(vm, key).s !in {"True", "False"})
  {
    match GetValue(vm, key)
    case Null => Success(false)
    case Flag(b) => Success(b)
    case Text(t) => ParseFlag(t)
  }

  /** `GetValue<string>`: null reads as `default(string)`, i.e. null; a bool converts to its text. */
  function ReadText(vm: ViewModel, key: string): (r: Option<string>)
    ensures key !in vm.values ==> r == None
    ensures key in vm.values && vm.values[key].Text? ==> r == Some(vm.values[key].s)
    ensures GetValue(vm, key) == Null ==> r == None
    ensures GetValue(vm, key).Flag? ==> r == Some(FlagText(GetValue(vm, key).b))
  {
    match GetValue(vm, key)
    case Null => None
    case Flag(b) => Some(FlagText(b))
    case Text(t) => Some(t)
  }

  /** The effects `OnPropertyChanged` delivers: one notification, only if someone listens. */
  function Notification(vm: ViewModel, key: string): (r: seq<Effect>)
    ensures vm.subscribed ==> r == [PropertyChanged(key)]
    ensures !vm.subscribed ==> r == []
  {
    if vm.subscribed then [PropertyChanged(key)] else []
  }

  /** `OnPropertyChanged`: hands the notification to the host's UI thread when subscribed. */
  function OnPropertyChanged(vm: ViewModel, key: string): (r: ViewModel)
    ensures r.values == vm.values && r.busyCount == vm.busyCount && r.subscribed == vm.subscribed
    ensures |r.effects| == |vm.effects| + (if vm.subscribed then 1 else 0)
    ensures r.effects[..|vm.effects|] == vm.effects
    ensures vm.subscribed ==> r.effects[|vm.effects|] == PropertyChanged(key)
  {
    vm.(effects := vm.effects + Notification(vm, key))
  }

  /**
   `SetValue(value, key)`: stores the value under the key (overwriting any
   earlier one, even an equal one) and raises exactly one notification naming
   the key.
   */
  function SetValue(vm: ViewModel, v: Value, key: string): (r: ViewModel)
    ensures GetValue(r, key) == v
    ensures key in r.values
    ensures forall k :: k != key ==> GetValue(r, k) == GetValue(vm, k)
    ensures r.values.Keys == vm.values.Keys + {key}
    ensures r.busyCount == vm.busyCount && r.subscribed == vm.subscribed
    ensures r.effects == vm.effects + Notification(vm, key)
  {
    OnPropertyChanged(vm.(values := vm.values[key := v]), key)
  }

  /** The `IsBusy` getter: `GetValue<bool>()` under the key "IsBusy"; false until first written. */
  function IsBusy(vm: ViewModel): (r: Result<bool, ConversionError>)
    ensures IsBusyKey !in vm.values ==> r == Success(false)
    ensures GetValue(vm, IsBusyKey) == Flag(true) ==> r == Success(true)
    ensures GetValue(vm, IsBusyKey) == Flag(false) ==> r == Success(false)
  {
    ReadFlag(vm, IsBusyKey)
  }

  /** Reads see only the dictionary: two models holding the same values read alike. */
  lemma SameValuesReadAlike(a: ViewModel, b: ViewModel)
    requires a.values == b.values
    ensures forall k :: GetValue(a, k) == GetValue(b, k)
    ensures IsBusy(a) == IsBusy(b)
  {
  }

  /** The visible flag agrees with the counter. */
  predicate Coherent(vm: ViewModel)
  {
    IsBusy(vm) == Success(vm.busyCount > 0)
  }

  /**
   `EnterBusy`: one more operation in flight. The flag is written (and a
   notification raised) only when the count has just become exactly one;
   otherwise nothing but the counter changes.
   */
  function EnterBusy(vm: ViewModel): (r: ViewModel)
    ensures r.busyCount == vm.busyCount + 1
    ensures r.busyCount == 1 ==> IsBusy(r) == Success(true) && GetValue(r, IsBusyKey) == Flag(true)
    ensures r.subscribed == vm.subscribed
    ensures r.busyCount == 1 ==> r.effects == vm.effects + Notification(vm, IsBusyKey)
    ensures r.busyCount != 1 ==> r == vm.(busyCount := vm.busyCount + 1)
    ensures forall k :: k != IsBusyKey ==> GetValue(r, k) == GetValue(vm, k)
    ensures Coherent(vm) ==> Coherent(r)
  {
    var counted := vm.(busyCount := vm.busyCount + 1);
    if counted.busyCount == 1 then SetValue(counted, Flag(true), IsBusyKey) else counted
  }

  /**
   `ExitBusy`: one operation finished. There is no guard against going below
   zero; the flag is written only when the count has just become exactly zero.
   */
  function ExitBusy(vm: ViewModel): (r: ViewModel)
    ensures r.busyCount == vm.busyCount - 1
    ensures r.busyCount == 0 ==> IsBusy(r) == Success(false) && GetValue(r, IsBusyKey) == Flag(false)
    ensures r.subscribed == vm.subscribed
    ensures r.busyCount == 0 ==> r.effects == vm.effects + Notification(vm, IsBusyKey)
    ensures r.busyCount != 0 ==> r == vm.(busyCount := vm.busyCount - 1)
    ensures forall k :: k != IsBusyKey ==> GetValue(r, k) == GetValue(vm, k)
    ensures Coherent(vm) ==> Coherent(r)
  {
    var counted := vm.(busyCount := vm.busyCount - 1);
    if counted.busyCount == 0 then SetValue(counted, Flag(false), IsBusyKey) else counted
  }

  /** The delegate `GetCompleteHandler` returns, applied: it ends one busy period, exactly as `ExitBusy`. */
  function Complete(vm: ViewModel): (r: ViewModel)
    ensures r == ExitBusy(vm)
    ensures r.busyCount == vm.busyCount - 1
    ensures forall k :: k != IsBusyKey ==> GetValue(r, k) == GetValue(vm, k)
    ensures Coherent(vm) ==> Coherent(r)
  {
    ExitBusy(vm)
  }

  /** The delegate `GetFailureHandler` returns, applied: one error alert through the host. */
  function Fail(vm: ViewModel, errors: seq<string>): (r: ViewModel)
    ensures r.values == vm.values && r.busyCount == vm.busyCount && r.subscribed == vm.subscribed
    ensures r.effects == vm.effects + [ErrorAlert(errors)]
  {
    vm.(effects := vm.effects + [ErrorAlert(errors)])
  }

  /** One call a caller can make on the busy counter. */
  datatype BusyOp = Enter | Exit

  function ApplyOp(vm: ViewModel, op: BusyOp): ViewModel
  {
    match op
    case Enter => EnterBusy(vm)
    case Exit => ExitBusy(vm)
  }

  /** How many times `op` occurs in `ops`. */
  function Occurrences(ops: seq<BusyOp>, op: BusyOp): (n: nat)
    ensures n <= |ops|
  {
    if ops == [] then 0
    else (if ops[0] == op then 1 else 0) + Occurrences(ops[1..], op)
  }

  /**
   A run of `EnterBusy`/`ExitBusy` calls in order. The counter ends at its
   start plus the enters minus the exits, the flag stays coherent with it,
   and no other property moves.
   */
  function RunBusy(vm: ViewModel, ops: seq<BusyOp>): (r: ViewModel)
    ensures r.busyCount == vm.busyCount + Occurrences(ops, Enter) - Occurrences(ops, Exit)
    ensures Coherent(vm) ==> Coherent(r)
    ensures forall k :: k != IsBusyKey ==> GetValue(r, k) == GetValue(vm, k)
    ensures r.subscribed == vm.subscribed
    decreases |ops|
  {
    if ops == [] then vm else RunBusy(ApplyOp(vm, ops[0]), ops[1..])
  }

  /** The two states a page starts from: just constructed, or constructed and then bound. */
  predicate Fresh(vm: ViewModel)
  {
    vm == New() || vm == Subscribe(New())
  }

  /** A new view-model reads null for every key, and `IsBusy` is false and agrees with its zero count. */
  lemma FreshReadsDefaults(vm: ViewModel, key: string)
    requires Fresh(vm)
    ensures GetValue(vm, key) == Null
    ensures ReadText(vm, key) == None
    ensures ReadFlag(vm, key) == Success(false)
    ensures IsBusy(vm) == Success(false)
    ensures Coherent(vm) && vm.busyCount == 0
  {
  }

  /** Typed reads give back what a write stored. */
  lemma SetThenRead(vm: ViewModel, key: string, b: bool, t: string)
    ensures ReadFlag(SetValue(vm, Flag(b), key), key) == Success(b)
    ensures ReadText(SetValue(vm, Text(t), key), key) == Some(t)
    ensures ReadText(SetValue(vm, Null, key), key) == None
    ensures ReadText(SetValue(vm, Flag(b), key), key) == Some(FlagText(b))
    ensures ReadFlag(SetValue(vm, Text(FlagText(b)), key), key) == Success(b)
  {
  }

  /** Writing the value a key already holds still raises a notification. */
  lemma RewriteStillNotifies(vm: ViewModel, key: string)
    requires vm.subscribed
    ensures var r := SetValue(vm, GetValue(vm, key), key);
      GetValue(r, key) == GetValue(vm, key) && r.effects == vm.effects + [PropertyChanged(key)]
  {
  }

  /**
   Starting from a fresh model, EVERY sequence of enters and exits keeps
   `IsBusy == (BusyCount > 0)`, even one that drives the count negative.
   */
  lemma AlwaysCoherent(vm: ViewModel, ops: seq<BusyOp>)
    requires Fresh(vm)
    ensures Coherent(RunBusy(vm, ops))
    ensures RunBusy(vm, ops).busyCount == Occurrences(ops, Enter) - Occurrences(ops, Exit)
  {
    FreshReadsDefaults(vm, IsBusyKey);
  }

  /** Equal numbers of enters and exits from a fresh model end idle, whatever the interleaving. */
  lemma BalancedEndsIdle(vm: ViewModel, ops: seq<BusyOp>)
    requires Fresh(vm)
    requires Occurrences(ops, Enter) == Occurrences(ops, Exit)
    ensures RunBusy(vm, ops).busyCount == 0
    ensures IsBusy(RunBusy(vm, ops)) == Success(false)
  {
    AlwaysCoherent(vm, ops);
  }

  /**
   The unguarded `ExitBusy`: an unmatched exit takes the count to -1 without
   touching the flag, and the next `EnterBusy` brings it back to 0 without
   setting the flag, so an operation runs while the view shows idle.
   */
  lemma UnmatchedExitHidesNextOperation(vm: ViewModel)
    requires Fresh(vm)
    ensures var down := ExitBusy(vm);
      down.busyCount == -1 && down.effects == [] && IsBusy(down) == Success(false)
    ensures var back := EnterBusy(ExitBusy(vm));
      back.busyCount == 0 && back.effects == [] && IsBusy(back) == Success(false)
  {
  }

  /** Entering then completing restores the counter and the visible flag of a coherent model. */
  lemma EnterThenCompleteRestores(vm: ViewModel)
    requires Coherent(vm)
    ensures Complete(EnterBusy(vm)).busyCount == vm.busyCount
    ensures IsBusy(Complete(EnterBusy(vm))) == IsBusy(vm)
  {
  }
}

=== FILE: Wrappers.dfy ===
/** Optional values and results with an error, used where the C# code uses null or throws. */
module Wrappers {

  /** `None` plays the part of a C# null reference. */
  datatype Option<+T> = None | Some(value: T)

  /** `Failure` plays the part of an exception the C# code would throw. */
  datatype Result<+T, +E> = Success(value: T) | Failure(error: E)
}
